=== FILE: README.md ===
# MINIX `mount`: a Dafny model of its decision logic

This project models the core of the MINIX `mount` command
(`commands/mount/mount.c`): the option filter `has_opt`, the handling of the
device name "none" and the file-system type probe in `main`, the
copy-then-append rewrite of `/etc/mtab` in `update_mtab`, the batch pass
`mount_all` over the fstab, and the access-mode rule of `list`.

The `mount` system call, the `fsversion` probe and `realpath` are function
parameters (oracles); `mount` returns the system call's integer result,
which `main` reads as a failure only when negative and `mount_all` reads
as a failure whenever it is not zero. Each is a fixed function of its argument, so within
one batch pass neither can see the mounts made earlier in that pass. The mount table is a `Mtab` value: a sequence of
entries and whether `load_mtab` can read it. `put_mtab_entry` writes into an
output buffer whose capacity (in entries) is a configuration value, together
with the `-n` switch that turns table recording off. The fstab is a
sequence of `FsEntry` values, handed to `mount_all` in the order `getfsent`
yields them.

Modules:

- `Wrappers` (wrappers.dfy): `Option`, for the C code's nullable pointers.
- `Options` (options.dfy): `has_opt`, with a declarative meaning: the
  keyword is one of the non-empty comma-delimited tokens.
- `FsType` (fstype.dfy): the "none" device and the type probe of `main`.
- `Mtab` (mtab.dfy): version tag, access token, the copy loop,
  `update_mtab`, and the `list` rendering.
- `Mount` (mount.dfy): the single-mount tail of `main` and `mount_all`.
  `mount_all` returns a trace of one step per fstab entry it visits. Its
  loop is `Pass`, written for any loop body; `Visit` is the body.
- `Scenarios` (scenarios.dfy): worked cases with fixed oracles.

Behaviour of the code a reader may not expect:

- The table rewrite does not deduplicate by mount point; mounting twice on
  one point leaves two rows (`UpdateKeepsDuplicateMountPoints`).
- Batch entries bypass the type probe; their own type is passed to `mount`.
- The entry recorded is the device argument as typed ("none" included) and,
  in the batch pass, the fstab mount point rather than its canonical form.
- `update_mtab` ignores the result of `rewrite_mtab`; only an unreadable
  table or a full output buffer stops it, with exit status 1.

## Model

| member | source | states |
|---|---|---|
| Options.HasOpt | commands/mount/mount.c:160-172 | true exactly when the keyword is a non-empty, comma-free token of the option string bounded by commas or the ends; never true of an empty option string, an empty keyword or a keyword holding a comma |
| Options.Scan | commands/mount/mount.c:166-169 | the `strtok` loop finds only a non-empty keyword no longer than what is left of the string; `ScanFindsTokens` states exactly which tokens it finds |
| Options.ScanFindsTokens | commands/mount/mount.c:166-169 | the `strtok` loop, resumed at any token boundary, finds the keyword exactly when it is a token starting at or after that boundary |
| Options.HasOptJoin | commands/mount/mount.c:160-172 | joining two option strings with a comma gives exactly the options of either one |
| Options.HasOptSingle | commands/mount/mount.c:166-169 | an option string without a comma holds exactly one option, itself, unless it is empty |
| FsType.DeviceArg | commands/mount/mount.c:71-72 | the device is absent exactly when the argument is "none", and otherwise is the argument itself |
| FsType.ResolveType | commands/mount/mount.c:74-83 | the type is changed only when a device is present and the type was missing or "mfs"; MFS1/2/3 give "mfs", EXT2 gives "ext2", any other probe result keeps the type given |
| FsType.ProbeIgnoredUnlessNeeded | commands/mount/mount.c:74 | without a device, or with an explicit type other than "mfs", the result does not depend on the probe at all |
| FsType.ResolveTypeIdempotent | commands/mount/mount.c:74-83 | resolving an already resolved type again with the same probe gives the same type |
| Mtab.VersionTag | commands/mount/mount.c:123-130 | the tag is always under 10 characters; "MFSv3" for "mfs"; otherwise the type name itself exactly when it fits, else "-" |
| Mtab.RwFlag | commands/mount/mount.c:131-132 | the token is "ro" for a read-only mount and "rw" otherwise |
| Mtab.Put | commands/mount/mount.c:114-136 | stands in for `put_mtab_entry`: an entry is appended exactly when the buffer has room, and otherwise the put fails |
| Mtab.CopyEntries | commands/mount/mount.c:114-122 | a finished copy holds every entry after those already buffered, and an overflow means the entries did not fit; `CopyEntriesLossless` states the copy exactly |
| Mtab.CopyEntriesLossless | commands/mount/mount.c:112-122 | copying the loaded entries reproduces them unchanged and in order when they fit, and overflows otherwise |
| Mtab.UpdateMtab | commands/mount/mount.c:101-139 | a no-op when recording is off; an unreadable table or a full buffer is fatal; otherwise the new table is every old entry in order, none changed or removed, plus exactly one new entry (device, mount point, bounded tag, "ro"/"rw"), even when the mount point is already listed |
| Mtab.UpdateKeepsDuplicateMountPoints | commands/mount/mount.c:114-132 | a mount on a point the table already lists keeps the old row in place and adds a second row for the same point |
| Mtab.Commit | commands/mount/mount.c:138 | stands in for `rewrite_mtab`: only a rewrite changes the table on disk, and the table stays as loadable as it was |
| Mtab.ShownAccess | commands/mount/mount.c:153-154 | an entry is shown read-write exactly when its token is "rw"; any other token is shown read-only |
| Mtab.ShownAccessRoundTrip | commands/mount/mount.c:131-132 | the listing shows back the access mode a mount recorded |
| Mtab.RenderLine | commands/mount/mount.c:153-155 | a listed line is the special file, "is read-write" exactly when the raw token is "rw" and "is read-only" for any other token, "mounted on" the mount point, and ends with the version tag in "(type …)" and a newline |
| Mtab.RenderAll | commands/mount/mount.c:150-156 | one line per entry, in table order, each the entry's rendering |
| Mtab.List | commands/mount/mount.c:141-158 | a table that cannot be loaded ends the listing with a failure; otherwise every entry is listed, in order |
| Mtab.ListAfterUpdate | commands/mount/mount.c:131-156 | after a recorded mount the listing is the earlier listing plus one line for the new entry, showing its access mode |
| Mount.SingleRequest | commands/mount/mount.c:71-83 | the request `main` makes: no device exactly for "none", otherwise the argument; point, flags and options as given; a type missing only when none was given, and never probed without a device |
| Mount.MountDevice | commands/mount/mount.c:71-138 | "none" reaches `mount` as no device; the type is the resolved one; a negative `mount` result fails and leaves the table alone; any other result succeeds when recording is off (whatever the type) or the table has room, and then the table is the old one plus the device argument as typed under the mount point, still loadable; an untyped mount on an unreadable or overfull table fails; every failure leaves the table unchanged |
| Mount.SkipEntry | commands/mount/mount.c:191-194 | the root mount point is always passed over, and an entry with no options only there |
| Mount.SkipEntryMeaning | commands/mount/mount.c:191-194 | an entry is passed over exactly when "noauto" is one of its option tokens or its canonical mount point is the root |
| Mount.BatchRequest | commands/mount/mount.c:195-210 | a batch mount is read-only exactly when the options hold "ro", has no device exactly when the entry's device is "none", and carries the entry's own type and options to the canonical mount point |
| Mount.Visit | commands/mount/mount.c:184-218 | one turn for one entry: the step names that entry and agrees with the oracles (a `mount` result other than zero fails) and the skip, flag and device rules; a successful mount is reported as a table failure exactly when recording is on and the table is unreadable or full, naming which; a halting step or recording off leaves the table alone; otherwise the table grows by the step's record only |
| Mount.Pass | commands/mount/mount.c:183-220 | the loop of `mount_all` takes at most one step per entry, and a step for every entry when it succeeds |
| Mount.PassInOrder | commands/mount/mount.c:183-219 | the loop's steps belong to the entries in fstab order, and each has every property a single turn guarantees |
| Mount.PassHaltsAtFirstFailure | commands/mount/mount.c:183-220 | the loop stops at the first halting step: no earlier step halts, a failed loop ends on a halting step, a successful one has a non-halting step for every entry |
| Mount.PassRecords | commands/mount/mount.c:209-212 | when each turn grows the table by its step's record, the loop grows it by the records of all its steps, in order |
| Mount.PassSeesTable | commands/mount/mount.c:183-220 | when every turn grows the table by its record and its step relates to the table it was given in some way, every step of the loop relates in that way to the table the earlier steps left |
| Mount.PassAppend | commands/mount/mount.c:183-220 | the loop over two runs of entries is the loop over the first and, only if that did not fail, the loop over the second from the table the first left |
| Mount.MountAll | commands/mount/mount.c:175-221 | at most one step per fstab entry, and one for every entry when the pass succeeds; the `MountAll…` lemmas state the rest |
| Mount.MountAllInOrder | commands/mount/mount.c:175-221 | `mount_all` takes one step per entry in fstab order; each is a canonicalisation failure, a skip of a "noauto" or root entry, or a mount (read-only iff "ro", no device iff "none") that succeeded (result zero) or failed (any other result) as the `mount` oracle says, or that succeeded and could not be recorded (when, is stated by `MountAllRecordFailures`) |
| Mount.MountAllHaltsAtFirstFailure | commands/mount/mount.c:183-220 | only the last step can halt; a failure ends on a canonicalisation, mount or table failure; success means every entry was skipped or mounted, and since the status is one of the two, the converse holds too |
| Mount.MountAllRecords | commands/mount/mount.c:209-212 | with recording off the table is unchanged; otherwise it is the old table followed by one record per successful mount, in order, under the entry's original device and mount-point names rather than the canonical path |
| Mount.BatchVisitorGrows | commands/mount/mount.c:209-212 | each turn of the batch loop grows the table by its step's record when recording is on, and leaves it alone otherwise |
| Mount.MountAllRecordFailures | commands/mount/mount.c:104-138 | a step is a table failure exactly when its mount succeeded, recording is on, and the table the earlier mounts left is unreadable or full; it names which; so with room in the table every successful mount is recorded and the pass goes on |
| Mount.MountAllAppend | commands/mount/mount.c:183-220 | the pass over two runs of entries is the pass over the first and, only if that did not fail, the pass over the second from the table the first left: nothing after a failure is attempted |
| Scenarios.HasOptFindsToken | commands/mount/mount.c:160-172 | an option is found among others ("rw,noauto") and between empty tokens (",,ro,") |
| Scenarios.HasOptMatchesExactly | commands/mount/mount.c:160-172 | no prefix match ("noautox"), no case folding ("RO"), no match across a comma, no empty keyword |
| Scenarios.BatchSkipsNoAutoAndRoot | commands/mount/mount.c:191-199 | a "noauto" entry and the root entry are skipped; the "ro" entry is mounted read-only and is the only one recorded |
| Scenarios.BatchHaltsAtFirstFailure | commands/mount/mount.c:209-218 | the first failed mount fails the pass; the next entry is never tried and the table is untouched |
| Scenarios.BatchFailsOnUnresolvableNoAuto | commands/mount/mount.c:187-192 | a mount point that cannot be canonicalised fails the pass even for a "noauto" entry |
| Scenarios.BatchStopsOnTableFailure | commands/mount/mount.c:108-136 | a successful mount on a full table, or on one that cannot be read, fails the pass with that error; the table stays as it was and the next entry is never tried |
| Scenarios.BatchNoneDevice | commands/mount/mount.c:201-212 | a "none" entry is mounted with no device and recorded as "none" |
| Scenarios.SingleMountDetectsMinix | commands/mount/mount.c:74-97 | a mount without a type of a device probed as MFS3 uses "mfs" and records "MFSv3", read-write |
| Scenarios.SingleMountWithoutRecording | commands/mount/mount.c:108 | with recording off a successful mount leaves the table as it was |
| Scenarios.SingleMountUntypedWithoutRecording | commands/mount/mount.c:71-108 | `mount -n none /tmp` without a type mounts with no device and no type, succeeds, and leaves the table as it was |
| Scenarios.SingleMountUntypedOnUnreadableTable | commands/mount/mount.c:71-110 | `mount none /tmp` without a type on an unreadable table mounts, then fails before the type is read, with the table as it was |
| Scenarios.PositiveMountResult | commands/mount/mount.c:85-210 | a positive `mount` result is a success for `main`, which records the mount, and a failure for `mount_all` |

## Left out

- The `mount` system call, `fsversion`, `realpath` and `getfsent`: foreign calls, given as parameters (the fstab as a sequence).
- The file I/O of `load_mtab`, `get_mtab_entry`, `put_mtab_entry` and `rewrite_mtab` (a library that is not part of this model): the table is a sequence, and the write is not modelled beyond replacing that sequence.
- Mtab.Put: the real buffer limit is in bytes inside that library; here the capacity is counted in entries.
- Mtab.UpdateMtab: the result of `rewrite_mtab` is ignored by the source, so a failing rewrite is not modelled; the rewrite always replaces the table.
- Mount.MountDevice: requires that the resolved type is present when the mount succeeds and `update_mtab` gets as far as reading it (recording on, table loaded, its entries copied), because the source then hands a NULL type to `strcmp` (device "none" and no `-t`, or an unrecognised device and no `-t`); with `-n`, or when the table is unreadable or overfull, `update_mtab` stops before that and the run is modelled.
- Mtab.VersionTag: one Dafny `char` stands for one C byte; a type name holding multi-byte characters is measured in characters, not in the bytes `strlen` counts.
- Mount.MountAll: the `mount` and `realpath` oracles do not depend on state, so a mount that fails because an earlier entry of the same pass already mounted there, or a canonical path that runs through a file system mounted earlier in the pass, cannot be expressed.
- Mount.MountAll: `exit(1)` inside `update_mtab` and a returned `EXIT_FAILURE` are both status 1 and are not told apart by the status; the step (`RecordFailed` versus the others) tells them apart.
- The dispatch at the top of `main` (no arguments lists the table, `-a` runs the batch pass) and the success message of a single mount.
- The argument loop of `main` (flags, `-t`, `-o`, `-a`, `-n`) and `usage`: argument parsing; its results enter as parameters.
- `printf`/`fprintf`/`std_err` diagnostics and the error text from `strerror`.
- Races between concurrent invocations on `/etc/mtab`: the source takes no lock.

=== FILE: fstype.dfy ===
/**
 Device and file-system type resolution for a single mount, as `main`
 performs it before calling `mount`: the device name "none" stands for no
 device, and a missing or "mfs" type is refined by probing the device.
 */
module FsType {
  import opened Wrappers

  /** The native file-system type name, `MINIX_FS_TYPE`. */
  const MinixFsType: string := "mfs"
  /** The type name chosen for a device the probe recognises as ext2. */
  const Ext2FsType: string := "ext2"
  /** The device name that means "no device at all". */
  const NoDevice: string := "none"

  /** What `fsversion` reports about a device: one of the three MINIX file
      system versions, ext2, or anything else (including its own failure). */
  datatype FsVersion = Mfs1 | Mfs2 | Mfs3 | Ext2 | Unrecognised

  /** The device `mount` is given for a device argument: none for "none". */
  function DeviceArg(arg: string): (device: Option<string>)
    ensures device.None? <==> arg == NoDevice
    ensures device.Some? ==> device.value == arg
  {
    if arg == NoDevice then None else Some(arg)
  }

  /** The probe is made only for a present device whose type was not given
      or was given as the native type. */
  predicate ProbeNeeded(device: Option<string>, requested: Option<string>) {
    device.Some? && (requested.None? || requested.value == MinixFsType)
  }

  /** The type a probe result selects, if it selects one. */
  function Detected(v: FsVersion): (fstype: Option<string>) {
    match v
    case Mfs1 | Mfs2 | Mfs3 => Some(MinixFsType)
    case Ext2 => Some(Ext2FsType)
    case Unrecognised => None
  }

  /** The type `main` passes to `mount`. The `probe` stands for `fsversion`. */
  function ResolveType(device: Option<string>, requested: Option<string>, probe: string -> FsVersion)
    : (fstype: Option<string>)
    ensures !ProbeNeeded(device, requested) ==> fstype == requested
    ensures device.None? ==> fstype == requested
    ensures ProbeNeeded(device, requested) ==>
      match probe(device.value)
      case Mfs1 | Mfs2 | Mfs3 => fstype == Some(MinixFsType)
      case Ext2 => fstype == Some(Ext2FsType)
      case Unrecognised => fstype == requested
    ensures fstype == requested || fstype == Some(MinixFsType) || fstype == Some(Ext2FsType)
  {
    if ProbeNeeded(device, requested) && Detected(probe(device.value)).Some? then
      Detected(probe(device.value))
    else
      requested
  }

  /** Without a device, or with an explicit type other than the native one,
      the probe is not consulted: any two probes give the same type. */
  lemma ProbeIgnoredUnlessNeeded(device: Option<string>, requested: Option<string>,
                                 probe1: string -> FsVersion, probe2: string -> FsVersion)
    requires !ProbeNeeded(device, requested)
    ensures ResolveType(device, requested, probe1) == ResolveType(device, requested, probe2) == requested
  {
  }

  /** Resolving an already resolved type again against the same device and
      probe changes nothing. */
  lemma ResolveTypeIdempotent(device: Option<string>, requested: Option<string>, probe: string -> FsVersion)
    ensures ResolveType(device, ResolveType(device, requested, probe), probe)
         == ResolveType(device, requested, probe)
  {
  }
}

=== FILE: mount.dfy ===
/**
 The two mounting paths of `mount`: a single mount from the command line
 (the tail of `main`) and the batch pass over the fstab (`mount_all`).
 The `mount` system call, `fsversion` and `realpath` are parameters.
 */
module Mount {
  import opened Wrappers
  import opened Options
  import opened FsType
  import opened Mtab

  /** The `mountflags` bits `mount` can set: `MS_RDONLY`, `MS_REUSE`,
      `MS_EXISTING`. */
  datatype MountFlags = MountFlags(readOnly: bool, reuse: bool, existing: bool)

  /** The arguments of one `mount` system call. */
  datatype MountRequest = MountRequest(
    device: Option<string>,
    point: string,
    flags: MountFlags,
    fstype: Option<string>,
    options: Option<string>)

  /** The process exit status. `EXIT_FAILURE` and `exit(1)` are the same
      status and are not told apart. */
  datatype Status = ExitSuccess | ExitFailure

  /** The request `main` builds for `mount [flags] special point`: no device
      for "none", and a type that is missing only when none was given. */
  function SingleRequest(special: string, point: string, flags: MountFlags, requested: Option<string>,
                         options: Option<string>, probe: string -> FsVersion): (req: MountRequest)
    ensures req.device.None? <==> special == NoDevice
    ensures req.device.Some? ==> req.device.value == special
    ensures req.point == point && req.flags == flags && req.options == options
    ensures req.fstype.None? ==> requested.None?
    ensures special == NoDevice ==> req.fstype == requested
  {
    var device := DeviceArg(special);
    MountRequest(device, point, flags, ResolveType(device, requested, probe), options)
  }

  /** The end of a single mount: its status, the request it made and the
      table left on disk. */
  datatype SingleResult = SingleResult(status: Status, request: MountRequest, mtab: Mtab)

  /** The single-mount path of `main`: map "none" to no device, resolve the
      type, call `mount`, and on success record the mount in the table under
      the device argument as typed. `main` takes only a negative `mount`
      result as a failure. `update_mtab` reads the type only once recording
      is on, the table has loaded and its entries have been copied; the
      source then hands it to `strcmp` unchecked, so a mount that reaches
      that point without a type is outside the model. A mount without a
      type that stops earlier fails as the source does. */
  function MountDevice(special: string, point: string, flags: MountFlags, requested: Option<string>,
                       options: Option<string>, probe: string -> FsVersion, mount: MountRequest -> int,
                       cfg: Config, mtab: Mtab): (r: SingleResult)
    requires ReachesTypeTest(cfg, mtab) && mount(SingleRequest(special, point, flags, requested, options, probe)) >= 0
             ==> SingleRequest(special, point, flags, requested, options, probe).fstype.Some?
    ensures r.request.device.None? <==> special == NoDevice
    ensures r.request.device.Some? ==> r.request.device.value == special
    ensures r.request.point == point && r.request.flags == flags && r.request.options == options
    ensures r.request.fstype == ResolveType(DeviceArg(special), requested, probe)
    ensures r.status == ExitSuccess ==> mount(r.request) >= 0
    ensures r.status == ExitFailure ==> r.mtab == mtab
    ensures mount(r.request) >= 0 && !cfg.writeMtab ==> r.status == ExitSuccess && r.mtab == mtab
    ensures mount(r.request) >= 0 && cfg.writeMtab ==>
      (r.status == ExitSuccess <==> mtab.loadable && |mtab.entries| < cfg.capacity)
    ensures mount(r.request) >= 0 && cfg.writeMtab && r.status == ExitSuccess ==>
      r.mtab == mtab.(entries := mtab.entries
        + [MtabEntry(special, point, VersionTag(r.request.fstype.value), RwFlag(flags.readOnly))])
  {
    var req := SingleRequest(special, point, flags, requested, options, probe);
    if mount(req) < 0 then SingleResult(ExitFailure, req, mtab)
    else if !cfg.writeMtab then SingleResult(ExitSuccess, req, mtab)
    else if req.fstype.None? then
      // the table is unreadable or overfull: `update_mtab` exits before `strcmp`
      SingleResult(ExitFailure, req, mtab)
    else
      var u := UpdateMtab(cfg, mtab, special, point, req.fstype.value, flags.readOnly);
      if u.Fatal? then SingleResult(ExitFailure, req, mtab)
      else SingleResult(ExitSuccess, req, Commit(mtab, u))
  }

  /** One line of the fstab as `getfsent` returns it. */
  datatype FsEntry = FsEntry(spec: string, file: string, vfstype: string, mntops: string)

  /** The option that keeps an entry out of the batch pass. */
  const NoAutoOption: string := "noauto"
  /** The option that makes a batch mount read-only. */
  const ReadOnlyOption: string := "ro"
  /** The root of the hierarchy, never remounted by the batch pass. */
  const RootDir: string := "/"

  /** Whether the batch pass passes over an entry whose mount point
      canonicalises to `point`. */
  predicate SkipEntry(e: FsEntry, point: string): (skip: bool)
    ensures point == RootDir ==> skip
    ensures e.mntops == [] ==> (skip <==> point == RootDir)
  {
    HasOpt(e.mntops, NoAutoOption) || point == RootDir
  }

  /** An entry is passed over exactly when "noauto" is one of its option
      tokens or its mount point is the root. */
  lemma SkipEntryMeaning(e: FsEntry, point: string)
    ensures SkipEntry(e, point) <==> IsOption(e.mntops, NoAutoOption) || point == RootDir
  {
  }

  /** The `mount` call the batch pass makes for an entry it does not skip:
      the entry's own type and options, read-only from the "ro" option. */
  function BatchRequest(e: FsEntry, point: string): (req: MountRequest)
    ensures req.device.None? <==> e.spec == NoDevice
    ensures req.device.Some? ==> req.device.value == e.spec
    ensures req.flags.readOnly <==> HasOpt(e.mntops, ReadOnlyOption)
    ensures !req.flags.reuse && !req.flags.existing
    ensures req.point == point && req.fstype == Some(e.vfstype) && req.options == Some(e.mntops)
  {
    MountRequest(DeviceArg(e.spec), point,
                 MountFlags(HasOpt(e.mntops, ReadOnlyOption), false, false),
                 Some(e.vfstype), Some(e.mntops))
  }

  /** What the batch pass did with one fstab entry. */
  datatype Step =
    | Unresolvable(entry: FsEntry)
    | Skipped(entry: FsEntry, point: string)
    | Mounted(entry: FsEntry, request: MountRequest)
    | MountFailed(entry: FsEntry, request: MountRequest)
    | RecordFailed(entry: FsEntry, request: MountRequest, error: MtabError)
  {
    /** The steps that end the pass with a failure. */
    predicate Halts() {
      Unresolvable? || MountFailed? || RecordFailed?
    }
  }

  /** `req` is the call the batch pass makes for `e`: its mount point
      canonicalised to the request's, and the entry is not skipped. */
  predicate Attempted(e: FsEntry, req: MountRequest, realpath: string -> Option<string>) {
    realpath(e.file) == Some(req.point) && !SkipEntry(e, req.point) && req == BatchRequest(e, req.point)
  }

  /** A step agrees with the oracles and the skip, flag and device rules.
      The batch pass takes every `mount` result but zero as a failure. */
  predicate StepAgrees(s: Step, realpath: string -> Option<string>, mount: MountRequest -> int) {
    match s
    case Unresolvable(e) => realpath(e.file).None?
    case Skipped(e, p) => realpath(e.file) == Some(p) && SkipEntry(e, p)
    case Mounted(e, req) =>
      Attempted(e, req, realpath) && mount(req) == 0
    case MountFailed(e, req) =>
      Attempted(e, req, realpath) && mount(req) != 0
    case RecordFailed(e, req, _) =>
      Attempted(e, req, realpath) && mount(req) == 0
  }

  /** The table entry a step adds: one for each mount, under the entry's
      original special file and mount point, not the canonical path. */
  function RecordOf(s: Step): (rec: seq<MtabEntry>) {
    if s.Mounted? then
      [MtabEntry(s.entry.spec, s.entry.file, VersionTag(s.entry.vfstype), RwFlag(s.request.flags.readOnly))]
    else []
  }

  /** The table entries a run of steps adds, in order. */
  function Records(steps: seq<Step>): (recs: seq<MtabEntry>) {
    if steps == [] then [] else RecordOf(steps[0]) + Records(steps[1..])
  }

  /** The records of a step followed by more steps. */
  lemma RecordsCons(s: Step, steps: seq<Step>)
    ensures Records([s] + steps) == RecordOf(s) + Records(steps)
  {
    assert ([s] + steps)[1..] == steps;
  }

  /** The outcome of a batch pass: status, the steps taken, the table left. */
  datatype BatchResult = BatchResult(status: Status, steps: seq<Step>, mtab: Mtab)

  /** What one turn of the loop does to an entry, given the table. */
  type Visitor = (FsEntry, Mtab) -> (Step, Mtab)

  /** The walk of `mount_all` over the entries `getfsent` hands out until
      it runs dry: visit them in order and stop at the first step that
      halts, which fails the pass. */
  function Pass(fstab: seq<FsEntry>, visit: Visitor, mtab: Mtab): (r: BatchResult)
    decreases |fstab|
    ensures |r.steps| <= |fstab|
    ensures r.status == ExitSuccess ==> |r.steps| == |fstab|
  {
    if fstab == [] then BatchResult(ExitSuccess, [], mtab)
    else
      var v := visit(fstab[0], mtab);
      if v.0.Halts() then BatchResult(ExitFailure, [v.0], mtab)
      else
        var rest := Pass(fstab[1..], visit, v.1);
        rest.(steps := [v.0] + rest.steps)
  }

  /** The walk takes its steps from the entries in order, and every step has
      any property every single turn guarantees. */
  lemma {:induction false} PassInOrder(fstab: seq<FsEntry>, visit: Visitor, mtab: Mtab, ok: Step -> bool)
    requires forall e, m :: visit(e, m).0.entry == e && ok(visit(e, m).0)
    ensures var r := Pass(fstab, visit, mtab);
      forall j :: 0 <= j < |r.steps| ==> r.steps[j].entry == fstab[j] && ok(r.steps[j])
    decreases |fstab|
  {
    if fstab != [] {
      var v := visit(fstab[0], mtab);
      if !v.0.Halts() {
        PassInOrder(fstab[1..], visit, v.1, ok);
      }
    }
  }

  /** The walk stops at the first halting step: no step but the last halts,
      a failed walk ends with a halting step, and a successful one took a
      step for every entry, none of them halting. */
  lemma {:induction false} PassHaltsAtFirstFailure(fstab: seq<FsEntry>, visit: Visitor, mtab: Mtab)
    ensures var r := Pass(fstab, visit, mtab);
      && (forall j :: 0 <= j < |r.steps| - 1 ==> !r.steps[j].Halts())
      && (r.status == ExitSuccess ==> |r.steps| == |fstab| && forall j :: 0 <= j < |r.steps| ==> !r.steps[j].Halts())
      && (r.status == ExitFailure ==> |r.steps| > 0 && r.steps[|r.steps| - 1].Halts())
    decreases |fstab|
  {
    if fstab != [] {
      var v := visit(fstab[0], mtab);
      if !v.0.Halts() {
        PassHaltsAtFirstFailure(fstab[1..], visit, v.1);
        var rest := Pass(fstab[1..], visit, v.1);
        var steps := [v.0] + rest.steps;
        assert forall j :: 0 < j < |steps| ==> steps[j] == rest.steps[j - 1];
      }
    }
  }

  /** When each turn grows the table by its step's record (or, with
      `grows` false, leaves it alone), the walk grows it by the records of
      all its steps, in order. */
  lemma {:induction false} PassRecords(fstab: seq<FsEntry>, visit: Visitor, mtab: Mtab, grows: bool)
    requires forall e, m :: visit(e, m).1 == m.(entries := m.entries + (if grows then RecordOf(visit(e, m).0) else []))
    ensures var r := Pass(fstab, visit, mtab);
      r.mtab == mtab.(entries := mtab.entries + (if grows then Records(r.steps) else []))
    decreases |fstab|
  {
    var r := Pass(fstab, visit, mtab);
    if fstab == [] {
      assert mtab.entries + [] == mtab.entries;
    } else {
      var v := visit(fstab[0], mtab);
      if v.0.Halts() {
        assert r.steps == [v.0];
        assert Records([v.0]) == [] by {
          RecordsCons(v.0, []);
        }
        assert mtab.entries + [] == mtab.entries;
      } else {
        PassRecords(fstab[1..], visit, v.1, grows);
        var rest := Pass(fstab[1..], visit, v.1);
        RecordsCons(v.0, rest.steps);
        if grows {
          assert mtab.entries + RecordOf(v.0) + Records(rest.steps)
              == mtab.entries + (RecordOf(v.0) + Records(rest.steps));
        } else {
          assert mtab.entries + [] + [] == mtab.entries + [];
        }
      }
    }
  }

  /** The table a run of steps leaves behind when each grows it by its
      record (or, with `grows` false, when none touches it). */
  function Grown(mtab: Mtab, steps: seq<Step>, grows: bool): (after: Mtab) {
    mtab.(entries := mtab.entries + (if grows then Records(steps) else []))
  }

  /** When each turn grows the table by its step's record and its step
      relates to the table it was given as `ok` says, step `j` of the walk
      relates so to the table the steps before it left. */
  lemma {:induction false} PassSeesTable(fstab: seq<FsEntry>, visit: Visitor, mtab: Mtab, grows: bool,
                                         ok: (Step, Mtab) -> bool, j: nat)
    requires forall e, m :: visit(e, m).1 == m.(entries := m.entries + (if grows then RecordOf(visit(e, m).0) else []))
    requires forall e, m :: ok(visit(e, m).0, m)
    requires j < |Pass(fstab, visit, mtab).steps|
    ensures var r := Pass(fstab, visit, mtab);
      ok(r.steps[j], Grown(mtab, r.steps[..j], grows))
    decreases |fstab|
  {
    var r := Pass(fstab, visit, mtab);
    var v := visit(fstab[0], mtab);
    if j == 0 {
      assert r.steps[..0] == [];
      assert Grown(mtab, [], grows) == mtab by {
        assert mtab.entries + [] == mtab.entries;
      }
      assert ok(v.0, mtab);
    } else {
      var rest := Pass(fstab[1..], visit, v.1);
      assert r.steps == [v.0] + rest.steps;
      PassSeesTable(fstab[1..], visit, v.1, grows, ok, j - 1);
      assert r.steps[..j] == [v.0] + rest.steps[..j - 1];
      GrownCons(mtab, v.0, rest.steps[..j - 1], grows);
    }
  }

  /** Growing the table by a step and then by more steps is growing it by
      all of them. */
  lemma GrownCons(mtab: Mtab, s: Step, steps: seq<Step>, grows: bool)
    ensures Grown(mtab, [s] + steps, grows)
         == Grown(mtab.(entries := mtab.entries + (if grows then RecordOf(s) else [])), steps, grows)
  {
    RecordsCons(s, steps);
    var prior := if grows then RecordOf(s) else [];
    var later := if grows then Records(steps) else [];
    assert mtab.entries + (if grows then Records([s] + steps) else []) == mtab.entries + prior + later;
  }

  /** The walk over `a + b` is the walk over `a` and, unless that failed,
      the walk over `b` from the table `a` left. */
  lemma {:induction false} PassAppend(a: seq<FsEntry>, b: seq<FsEntry>, visit: Visitor, mtab: Mtab)
    ensures var ra := Pass(a, visit, mtab);
      Pass(a + b, visit, mtab)
        == if ra.status == ExitFailure then ra
           else var rb := Pass(b, visit, ra.mtab);
                rb.(steps := ra.steps + rb.steps)
    decreases |a|
  {
    if a == [] {
      assert a + b == b;
    } else {
      assert (a + b)[0] == a[0];
      assert (a + b)[1..] == a[1..] + b;
      var v := visit(a[0], mtab);
      if !v.0.Halts() {
        PassAppend(a[1..], b, visit, v.1);
        var ra' := Pass(a[1..], visit, v.1);
        if ra'.status != ExitFailure {
          var rb := Pass(b, visit, ra'.mtab);
          assert [v.0] + (ra'.steps + rb.steps) == ([v.0] + ra'.steps) + rb.steps;
        }
      }
    }
  }

  /** A step reports a table failure exactly when its mount succeeded while
      recording is on and the table `m` it found is unreadable or full, and
      then names which of the two it was. */
  predicate RecordingAgrees(s: Step, cfg: Config, m: Mtab) {
    && (s.RecordFailed? <==>
          (s.Mounted? || s.RecordFailed?) && cfg.writeMtab && !(m.loadable && |m.entries| < cfg.capacity))
    && (s.RecordFailed? ==> s.error == if m.loadable then TooLarge else Unreadable)
  }

  /** One turn of the loop of `mount_all` for entry `e`: the step taken and
      the table left behind. */
  function Visit(e: FsEntry, realpath: string -> Option<string>, mount: MountRequest -> int,
                 cfg: Config, mtab: Mtab): (v: (Step, Mtab))
    ensures v.0.entry == e
    ensures StepAgrees(v.0, realpath, mount)
    ensures RecordingAgrees(v.0, cfg, mtab)
    ensures v.0.Halts() || !cfg.writeMtab ==> v.1 == mtab
    ensures cfg.writeMtab ==> v.1 == mtab.(entries := mtab.entries + RecordOf(v.0))
  {
    match realpath(e.file)
    case None => (Unresolvable(e), mtab)
    case Some(p) =>
      if SkipEntry(e, p) then (Skipped(e, p), mtab)
      else
        var req := BatchRequest(e, p);
        if mount(req) != 0 then (MountFailed(e, req), mtab)
        else
          var u := UpdateMtab(cfg, mtab, e.spec, e.file, e.vfstype, req.flags.readOnly);
          if u.Fatal? then (RecordFailed(e, req, u.error), mtab)
          else (Mounted(e, req), Commit(mtab, u))
  }

  /** The loop body of `mount_all` with its collaborators fixed. */
  function BatchVisitor(realpath: string -> Option<string>, mount: MountRequest -> int, cfg: Config)
    : (visit: Visitor)
  {
    (e: FsEntry, m: Mtab) => Visit(e, realpath, mount, cfg, m)
  }

  /** Each turn of the batch loop grows the table by its step's record when
      recording is on, and leaves it alone otherwise. */
  lemma BatchVisitorGrows(realpath: string -> Option<string>, mount: MountRequest -> int, cfg: Config)
    ensures var visit := BatchVisitor(realpath, mount, cfg);
      forall e, m :: visit(e, m).1 == m.(entries := m.entries + (if cfg.writeMtab then RecordOf(visit(e, m).0) else []))
  {
  }

  /** `mount_all()`: walk the fstab in order; stop with a failure when a
      mount point cannot be canonicalised, a mount fails, or the table
      cannot be updated; skip "noauto" entries and the root; mount the rest. */
  function MountAll(fstab: seq<FsEntry>, realpath: string -> Option<string>, mount: MountRequest -> int,
                    cfg: Config, mtab: Mtab): (r: BatchResult)
    ensures |r.steps| <= |fstab|
    ensures r.status == ExitSuccess ==> |r.steps| == |fstab|
  {
    Pass(fstab, BatchVisitor(realpath, mount, cfg), mtab)
  }

  /** The pass takes one step per entry, in fstab order, each agreeing with
      the oracles and with the skip, read-only and device rules. */
  lemma MountAllInOrder(fstab: seq<FsEntry>, realpath: string -> Option<string>,
                        mount: MountRequest -> int, cfg: Config, mtab: Mtab)
    ensures var r := MountAll(fstab, realpath, mount, cfg, mtab);
      && |r.steps| <= |fstab|
      && forall j :: 0 <= j < |r.steps| ==> r.steps[j].entry == fstab[j] && StepAgrees(r.steps[j], realpath, mount)
  {
    PassInOrder(fstab, BatchVisitor(realpath, mount, cfg), mtab, (s: Step) => StepAgrees(s, realpath, mount));
  }

  /** The pass stops at the first failure: no step but the last halts; a
      failed pass ends with a halting step; a successful one took a step for
      every entry and each was a skip or a mount. Since the status is one of
      the two, the pass succeeds exactly when every entry was skipped or
      mounted. */
  lemma MountAllHaltsAtFirstFailure(fstab: seq<FsEntry>, realpath: string -> Option<string>,
                                    mount: MountRequest -> int, cfg: Config, mtab: Mtab)
    ensures var r := MountAll(fstab, realpath, mount, cfg, mtab);
      && (forall j :: 0 <= j < |r.steps| - 1 ==> !r.steps[j].Halts())
      && (r.status == ExitSuccess ==> |r.steps| == |fstab| && forall j :: 0 <= j < |r.steps| ==> !r.steps[j].Halts())
      && (r.status == ExitFailure ==> |r.steps| > 0 && r.steps[|r.steps| - 1].Halts())
  {
    PassHaltsAtFirstFailure(fstab, BatchVisitor(realpath, mount, cfg), mtab);
  }

  /** The table after the pass: unchanged when recording is off, and
      otherwise the old table followed by one record per mount, in order,
      under the entries' original device and mount-point names. */
  lemma MountAllRecords(fstab: seq<FsEntry>, realpath: string -> Option<string>,
                        mount: MountRequest -> int, cfg: Config, mtab: Mtab)
    ensures var r := MountAll(fstab, realpath, mount, cfg, mtab);
      && (!cfg.writeMtab ==> r.mtab == mtab)
      && (cfg.writeMtab ==> r.mtab == mtab.(entries := mtab.entries + Records(r.steps)))
  {
    BatchVisitorGrows(realpath, mount, cfg);
    PassRecords(fstab, BatchVisitor(realpath, mount, cfg), mtab, cfg.writeMtab);
    if !cfg.writeMtab {
      assert mtab.entries + [] == mtab.entries;
    }
  }

  /** A successful mount fails to be recorded exactly when recording is on
      and the table the earlier steps left is unreadable or full; the step
      names which. So with recording on and room in the table, a mount is
      recorded and the pass goes on. */
  lemma MountAllRecordFailures(fstab: seq<FsEntry>, realpath: string -> Option<string>,
                               mount: MountRequest -> int, cfg: Config, mtab: Mtab)
    ensures var r := MountAll(fstab, realpath, mount, cfg, mtab);
      forall j :: 0 <= j < |r.steps| ==>
        && (r.steps[j].RecordFailed? <==>
              && (r.steps[j].Mounted? || r.steps[j].RecordFailed?)
              && cfg.writeMtab
              && !(mtab.loadable && |mtab.entries + Records(r.steps[..j])| < cfg.capacity))
        && (r.steps[j].RecordFailed? ==> r.steps[j].error == if mtab.loadable then TooLarge else Unreadable)
  {
    var visit := BatchVisitor(realpath, mount, cfg);
    BatchVisitorGrows(realpath, mount, cfg);
    var ok := (s: Step, m: Mtab) => RecordingAgrees(s, cfg, m);
    var r := MountAll(fstab, realpath, mount, cfg, mtab);
    forall j | 0 <= j < |r.steps|
      ensures RecordingAgrees(r.steps[j], cfg, mtab.(entries := mtab.entries + Records(r.steps[..j])))
    {
      PassSeesTable(fstab, visit, mtab, cfg.writeMtab, ok, j);
    }
  }

  /** The pass over `a + b` is the pass over `a` and, unless that failed,
      the pass over `b` from the table `a` left: a failure in `a` means no
      entry of `b` is looked at. */
  lemma MountAllAppend(a: seq<FsEntry>, b: seq<FsEntry>, realpath: string -> Option<string>,
                       mount: MountRequest -> int, cfg: Config, mtab: Mtab)
    ensures var ra := MountAll(a, realpath, mount, cfg, mtab);
      MountAll(a + b, realpath, mount, cfg, mtab)
        == if ra.status == ExitFailure then ra
           else var rb := MountAll(b, realpath, mount, cfg, ra.mtab);
                rb.(steps := ra.steps + rb.steps)
  {
    PassAppend(a, b, BatchVisitor(realpath, mount, cfg), mtab);
  }
}

=== FILE: mtab.dfy ===
/**
 The mount table `/etc/mtab` as `mount` reads and rewrites it: the
 `update_mtab` copy-then-append protocol and the `list` rendering. The file
 itself, and the library behind `load_mtab`, `get_mtab_entry`,
 `put_mtab_entry` and `rewrite_mtab`, are modelled as a sequence of entries
 with an output buffer of fixed capacity. A `string` stands for a C byte
 string: one `char` is one byte, so lengths are `strlen` lengths only for
 single-byte names.
 */
module Mtab {
  import opened Wrappers
  import FsType

  /** One line of the mount table: special file, mount point, version tag
      and access token. */
  datatype MtabEntry = MtabEntry(special: string, mountedOn: string, version: string, rwFlag: string)

  /** The table on disk; `loadable` is false when `load_mtab` fails on it. */
  datatype Mtab = Mtab(entries: seq<MtabEntry>, loadable: bool)

  /** `writeMtab` is the `-n` switch turned around; `capacity` is how many
      entries the output buffer of `put_mtab_entry` holds. */
  datatype Config = Config(writeMtab: bool, capacity: nat)

  /** Size of the `version` buffer of `update_mtab`, terminator included. */
  const VersionFieldSize: nat := 10
  /** The version tag recorded for the native file system. */
  const MinixVersionTag: string := "MFSv3"
  /** The version tag recorded for a type name too long for the field. */
  const NoVersionTag: string := "-"
  /** The access tokens of the table. */
  const ReadWriteFlag: string := "rw"
  const ReadOnlyFlag: string := "ro"

  /** The version tag `update_mtab` records for a file-system type. */
  function VersionTag(fstype: string): (tag: string)
    ensures |tag| < VersionFieldSize
    ensures fstype == FsType.MinixFsType ==> tag == MinixVersionTag
    ensures fstype != FsType.MinixFsType ==> (tag == fstype <==> |fstype| < VersionFieldSize)
    ensures tag == fstype || tag == MinixVersionTag || tag == NoVersionTag
  {
    if fstype == FsType.MinixFsType then MinixVersionTag
    else if |fstype| < VersionFieldSize then fstype
    else NoVersionTag
  }

  /** The access token recorded for a mount. */
  function RwFlag(readOnly: bool): (flag: string)
    ensures flag == ReadWriteFlag <==> !readOnly
    ensures flag == ReadOnlyFlag <==> readOnly
  {
    if readOnly then ReadOnlyFlag else ReadWriteFlag
  }

  /** Stands in for the library call `put_mtab_entry`: append to the output
      buffer, or fail when it is full. */
  function Put(buf: seq<MtabEntry>, e: MtabEntry, capacity: nat): (r: Option<seq<MtabEntry>>)
    ensures r.Some? <==> |buf| < capacity
    ensures r.Some? ==> r.value == buf + [e]
  {
    if |buf| < capacity then Some(buf + [e]) else None
  }

  /** The copy loop of `update_mtab`: every entry still to be read is put
      into the output buffer in turn, stopping at the first overflow. */
  function CopyEntries(buf: seq<MtabEntry>, rest: seq<MtabEntry>, capacity: nat): (out: Option<seq<MtabEntry>>)
    decreases |rest|
    ensures out.Some? ==> |out.value| == |buf| + |rest| && buf <= out.value
    ensures out.None? ==> |buf| + |rest| > capacity
  {
    if rest == [] then Some(buf)
    else match Put(buf, rest[0], capacity)
      case None => None
      case Some(buf') => CopyEntries(buf', rest[1..], capacity)
  }

  /** The copy is lossless and in order when everything fits, and
      overflows otherwise. */
  lemma {:induction false} CopyEntriesLossless(buf: seq<MtabEntry>, rest: seq<MtabEntry>, capacity: nat)
    requires |buf| <= capacity
    ensures CopyEntries(buf, rest, capacity)
         == if |buf| + |rest| <= capacity then Some(buf + rest) else None
    decreases |rest|
  {
    if rest != [] {
      if |buf| < capacity {
        CopyEntriesLossless(buf + [rest[0]], rest[1..], capacity);
        assert buf + [rest[0]] + rest[1..] == buf + rest;
      } else {
        assert Put(buf, rest[0], capacity).None?;
      }
    } else {
      assert buf + rest == buf;
    }
  }

  /** Why `update_mtab` ends the process with status 1. */
  datatype MtabError = Unreadable | TooLarge

  /** What `update_mtab` does: nothing (table recording off), rewrite the
      table with the given entries, or exit on an error. */
  datatype MtabUpdate = NotRecorded | Rewritten(entries: seq<MtabEntry>) | Fatal(error: MtabError)

  /** `update_mtab(dev, mountpoint, fstype, mountflags)`. The type must be
      present: the source hands it to `strcmp` unchecked. */
  function UpdateMtab(cfg: Config, mtab: Mtab, dev: string, mountpoint: string, fstype: string, readOnly: bool)
    : (u: MtabUpdate)
    ensures !cfg.writeMtab ==> u == NotRecorded
    ensures cfg.writeMtab && !mtab.loadable ==> u == Fatal(Unreadable)
    ensures cfg.writeMtab && mtab.loadable ==> (u.Rewritten? <==> |mtab.entries| < cfg.capacity)
    ensures cfg.writeMtab && mtab.loadable && |mtab.entries| >= cfg.capacity ==> u == Fatal(TooLarge)
    ensures u.Rewritten? ==>
      && u.entries == mtab.entries + [MtabEntry(dev, mountpoint, VersionTag(fstype), RwFlag(readOnly))]
      && |u.entries| <= cfg.capacity
  {
    if !cfg.writeMtab then NotRecorded
    else if !mtab.loadable then Fatal(Unreadable)
    else
      CopyEntriesLossless([], mtab.entries, cfg.capacity);
      match CopyEntries([], mtab.entries, cfg.capacity)
      case None => Fatal(TooLarge)
      case Some(buf) =>
        match Put(buf, MtabEntry(dev, mountpoint, VersionTag(fstype), RwFlag(readOnly)), cfg.capacity)
        case None => Fatal(TooLarge)
        case Some(out) => Rewritten(out)
  }

  /** The rewrite does not deduplicate: mounting on a point the table
      already lists leaves both rows, the old one first. */
  lemma UpdateKeepsDuplicateMountPoints(cfg: Config, mtab: Mtab, dev: string, mountpoint: string, fstype: string,
                                        readOnly: bool, i: nat)
    requires i < |mtab.entries| && mtab.entries[i].mountedOn == mountpoint
    requires UpdateMtab(cfg, mtab, dev, mountpoint, fstype, readOnly).Rewritten?
    ensures var t := UpdateMtab(cfg, mtab, dev, mountpoint, fstype, readOnly).entries;
      && |t| == |mtab.entries| + 1
      && t[i] == mtab.entries[i]
      && t[i].mountedOn == t[|t| - 1].mountedOn == mountpoint
  {
  }

  /** `update_mtab` gets as far as reading the type: recording is on, the
      table has loaded and its entries all fit the output buffer. */
  predicate ReachesTypeTest(cfg: Config, mtab: Mtab) {
    cfg.writeMtab && mtab.loadable && |mtab.entries| <= cfg.capacity
  }

  /** Stands in for the library call `rewrite_mtab`: the table on disk after
      an update, which only a rewrite changes. */
  function Commit(mtab: Mtab, u: MtabUpdate): (after: Mtab)
    ensures after.loadable == mtab.loadable
    ensures !u.Rewritten? ==> after == mtab
  {
    if u.Rewritten? then mtab.(entries := u.entries) else mtab
  }

  /** How `list` shows an entry's access mode. */
  datatype Access = ReadWrite | ReadOnly

  /** `list` shows "rw" as read-write and every other token as read-only. */
  function ShownAccess(rwFlag: string): (a: Access)
    ensures a == ReadWrite <==> rwFlag == ReadWriteFlag
  {
    if rwFlag == ReadWriteFlag then ReadWrite else ReadOnly
  }

  /** The listing shows back the access mode a mount recorded. */
  lemma ShownAccessRoundTrip(readOnly: bool)
    ensures ShownAccess(RwFlag(readOnly)) == if readOnly then ReadOnly else ReadWrite
  {
  }

  /** The line `list` prints for an entry: the special file, "read-write"
      exactly for the token "rw" and "read-only" for any other, the mount
      point, and the version tag. */
  function RenderLine(e: MtabEntry): (line: string)
    ensures var word := if e.rwFlag == ReadWriteFlag then "write" else "only";
      e.special + " is read-" + word + " mounted on " + e.mountedOn <= line
    ensures var tail := " (type " + e.version + ")\n"; |tail| <= |line| && line[|line| - |tail|..] == tail
  {
    e.special + " is read-" + (if ShownAccess(e.rwFlag) == ReadWrite then "write" else "only")
    + " mounted on " + e.mountedOn + " (type " + e.version + ")\n"
  }

  /** The lines for a run of entries, one each, in table order. */
  function RenderAll(es: seq<MtabEntry>): (lines: seq<string>)
    ensures |lines| == |es|
    ensures forall j :: 0 <= j < |es| ==> lines[j] == RenderLine(es[j])
  {
    if es == [] then [] else [RenderLine(es[0])] + RenderAll(es[1..])
  }

  /** What `list` produces: the rendered table, or an exit on a load failure. */
  datatype Listing = Listed(lines: seq<string>) | ListFailed

  /** `list()`: read the table and print every entry. */
  function List(mtab: Mtab): (r: Listing)
    ensures r.ListFailed? <==> !mtab.loadable
    ensures r.Listed? ==> |r.lines| == |mtab.entries|
    ensures r.Listed? ==> forall j :: 0 <= j < |mtab.entries| ==> r.lines[j] == RenderLine(mtab.entries[j])
  {
    if mtab.loadable then Listed(RenderAll(mtab.entries)) else ListFailed
  }

  /** After a recorded mount the listing is the previous listing followed by
      one line for the new entry, which shows the mount's access mode. */
  lemma ListAfterUpdate(cfg: Config, mtab: Mtab, dev: string, mountpoint: string, fstype: string, readOnly: bool)
    requires UpdateMtab(cfg, mtab, dev, mountpoint, fstype, readOnly).Rewritten?
    ensures var e := MtabEntry(dev, mountpoint, VersionTag(fstype), RwFlag(readOnly));
      && List(Commit(mtab, UpdateMtab(cfg, mtab, dev, mountpoint, fstype, readOnly)))
         == Listed(List(mtab).lines + [RenderLine(e)])
      && ShownAccess(e.rwFlag) == if readOnly then ReadOnly else ReadWrite
  {
    var u := UpdateMtab(cfg, mtab, dev, mountpoint, fstype, readOnly);
    var e := MtabEntry(dev, mountpoint, VersionTag(fstype), RwFlag(readOnly));
    assert u.entries == mtab.entries + [e];
    assert RenderAll(u.entries) == RenderAll(mtab.entries) + [RenderLine(e)];
  }
}

=== FILE: options.dfy ===
/**
 The option filter of `mount`: a membership test of a keyword among the
 comma-separated tokens of an fstab option string, as `has_opt` performs it
 with `strtok`.
 */
module Options {

  /** The delimiter `has_opt` hands to `strtok`. */
  const Delim: char := ','

  /** `s[a..b]` is a token in the sense of `strtok`: non-empty, free of
      delimiters, and bounded on each side by a delimiter or an end of `s`. */
  ghost predicate TokenAt(s: string, a: int, b: int) {
    && 0 <= a < b <= |s|
    && (a == 0 || s[a - 1] == Delim)
    && (b == |s| || s[b] == Delim)
    && forall m :: a <= m < b ==> s[m] != Delim
  }

  /** The reference meaning of the filter: `k` is one of the tokens of `s`. */
  ghost predicate IsOption(s: string, k: string) {
    exists a, b :: TokenAt(s, a, b) && s[a..b] == k
  }

  /** The `strtok` loop of `has_opt`: the current token runs from `start`
      and the scan is at `i`; a delimiter or the end of the string closes
      the token, which is compared only when it is non-empty. */
  function Scan(s: string, k: string, start: nat, i: nat): (found: bool)
    requires start <= i <= |s|
    decreases |s| - i
    ensures found ==> 0 < |k| <= |s| - start
  {
    if i == |s| then start < i && s[start..i] == k
    else if s[i] == Delim then (start < i && s[start..i] == k) || Scan(s, k, i + 1, i + 1)
    else Scan(s, k, start, i + 1)
  }

  /** The scan finds `k` exactly when `k` is a token starting at or after
      `start`. */
  lemma {:induction false} ScanFindsTokens(s: string, k: string, start: nat, i: nat)
    requires start <= i <= |s|
    requires start == 0 || s[start - 1] == Delim
    requires forall m :: start <= m < i ==> s[m] != Delim
    ensures Scan(s, k, start, i) <==> exists a, b :: start <= a && TokenAt(s, a, b) && s[a..b] == k
    decreases |s| - i
  {
    if i == |s| {
      if start < i && s[start..i] == k {
        assert TokenAt(s, start, i);
      }
      forall a, b | start <= a && TokenAt(s, a, b)
        ensures a == start && b == i
      {
      }
    } else if s[i] == Delim {
      ScanFindsTokens(s, k, i + 1, i + 1);
      if start < i && s[start..i] == k {
        assert TokenAt(s, start, i);
      }
      forall a, b | start <= a && TokenAt(s, a, b)
        ensures (a == start && b == i) || i + 1 <= a
      {
      }
    } else {
      ScanFindsTokens(s, k, start, i + 1);
    }
  }

  /** A token is never empty and never holds a delimiter. */
  lemma TokenShape(s: string, k: string)
    ensures IsOption(s, k) ==> k != [] && Delim !in k
  {
    if IsOption(s, k) {
      var a, b :| TokenAt(s, a, b) && s[a..b] == k;
      assert forall j :: 0 <= j < |k| ==> k[j] == s[a + j];
    }
  }

  /** `has_opt(mntopts, option)`: whether `option` is one of the
      comma-separated tokens of `mntopts`, compared exactly and
      case-sensitively; empty tokens are skipped. */
  function HasOpt(mntopts: string, option: string): (found: bool)
    ensures found <==> IsOption(mntopts, option)
    ensures found ==> option != [] && Delim !in option
    ensures mntopts == [] ==> !found
  {
    ScanFindsTokens(mntopts, option, 0, 0);
    TokenShape(mntopts, option);
    Scan(mntopts, option, 0, 0)
  }

  /** Scanning `b` behind any prefix `p` behaves as scanning `b` alone. */
  lemma {:induction false} ScanBehindPrefix(p: string, b: string, k: string, start: nat, i: nat)
    requires start <= i <= |b|
    ensures Scan(p + b, k, |p| + start, |p| + i) == Scan(b, k, start, i)
    decreases |b| - i
  {
    var s := p + b;
    assert s[|p| + start..|p| + i] == b[start..i];
    if i < |b| {
      assert s[|p| + i] == b[i];
      if b[i] == Delim {
        ScanBehindPrefix(p, b, k, i + 1, i + 1);
      } else {
        ScanBehindPrefix(p, b, k, start, i + 1);
      }
    }
  }

  /** Scanning `a` followed by a delimiter and `b` finds `k` in the part
      taken from `a` or in the scan that starts after the delimiter. */
  lemma {:induction false} ScanAcrossDelim(a: string, b: string, k: string, start: nat, i: nat)
    requires start <= i <= |a|
    ensures Scan(a + [Delim] + b, k, start, i)
        == (Scan(a, k, start, i) || Scan(a + [Delim] + b, k, |a| + 1, |a| + 1))
    decreases |a| - i
  {
    var s := a + [Delim] + b;
    assert s[start..i] == a[start..i];
    assert s[i] == if i < |a| then a[i] else Delim;
    if i < |a| {
      if a[i] == Delim {
        ScanAcrossDelim(a, b, k, i + 1, i + 1);
      } else {
        ScanAcrossDelim(a, b, k, start, i + 1);
      }
    }
  }

  /** Joining two option strings with a comma yields exactly the options
      of either: `has_opt("a,b", k)` is `has_opt("a", k) || has_opt("b", k)`. */
  lemma HasOptJoin(a: string, b: string, k: string)
    ensures HasOpt(a + [Delim] + b, k) <==> HasOpt(a, k) || HasOpt(b, k)
  {
    ScanAcrossDelim(a, b, k, 0, 0);
    assert a + [Delim] + b == (a + [Delim]) + b;
    ScanBehindPrefix(a + [Delim], b, k, 0, 0);
  }

  /** An option string without a comma holds a single option: itself, when
      it is not empty. */
  lemma HasOptSingle(s: string, k: string)
    requires Delim !in s
    ensures HasOpt(s, k) <==> s != [] && k == s
  {
    if s != [] {
      assert TokenAt(s, 0, |s|);
      assert s[0..|s|] == s;
    }
    forall a, b | TokenAt(s, a, b)
      ensures a == 0 && b == |s|
    {
    }
  }
}

=== FILE: scenarios.dfy ===
/**
 Worked cases of the rules of `mount`, with the collaborators fixed to
 simple functions: the option filter on sample strings, the skip rules and
 the halt-on-failure rule of the batch pass, and the "none" device.
 */
module Scenarios {
  import opened Wrappers
  import opened Options
  import opened FsType
  import opened Mtab
  import opened Mount

  /** An option is found among others and between empty tokens. */
  lemma HasOptFindsToken()
    ensures HasOpt("rw,noauto", "noauto")
    ensures HasOpt(",,ro,", "ro")
  {
    assert "rw,noauto" == "rw" + [Delim] + "noauto";
    HasOptJoin("rw", "noauto", "noauto");
    HasOptSingle("noauto", "noauto");
    assert ",,ro," == [] + [Delim] + ",ro,";
    HasOptJoin([], ",ro,", "ro");
    assert ",ro," == [] + [Delim] + "ro,";
    HasOptJoin([], "ro,", "ro");
    assert "ro," == "ro" + [Delim] + [];
    HasOptJoin("ro", [], "ro");
    HasOptSingle("ro", "ro");
  }

  /** Tokens match whole and case-sensitively, never across a comma, and
      an empty keyword is never found. */
  lemma HasOptMatchesExactly()
    ensures !HasOpt("noautox", "noauto")
    ensures !HasOpt("RO", "ro")
    ensures !HasOpt("ro,rw", "ro,rw")
    ensures !HasOpt(",,", "")
  {
    HasOptSingle("noautox", "noauto");
    HasOptSingle("RO", "ro");
    assert Delim in "ro,rw";
  }

  /** Every mount point canonicalises to itself. */
  function Identity(path: string): Option<string> {
    Some(path)
  }

  /** A table with room for a few entries, recording enabled. */
  const Recording: Config := Config(true, 8)

  /** Every mount succeeds, returning zero. */
  function AlwaysMounts(req: MountRequest): int {
    0
  }

  /** The three turns of the sample below, each on its own. */
  lemma SampleVisits()
    ensures
      var visit := BatchVisitor(Identity, AlwaysMounts, Recording);
      var m0 := Mtab([], true);
      && visit(FsEntry("d1", "/a", "fsX", "noauto"), m0) == (Skipped(FsEntry("d1", "/a", "fsX", "noauto"), "/a"), m0)
      && visit(FsEntry("d2", "/", "fsX", ""), m0) == (Skipped(FsEntry("d2", "/", "fsX", ""), "/"), m0)
      && visit(FsEntry("d3", "/b", "fsX", "ro"), m0)
         == (Mounted(FsEntry("d3", "/b", "fsX", "ro"),
                     MountRequest(Some("d3"), "/b", MountFlags(true, false, false), Some("fsX"), Some("ro"))),
             Mtab([MtabEntry("d3", "/b", "fsX", "ro")], true))
  {
    var e3 := FsEntry("d3", "/b", "fsX", "ro");
    var m0 := Mtab([], true);
    assert HasOpt("noauto", NoAutoOption);
    assert !HasOpt("ro", NoAutoOption) && HasOpt("ro", ReadOnlyOption);
    assert VersionTag("fsX") == "fsX" && RwFlag(true) == "ro";
    assert UpdateMtab(Recording, m0, "d3", "/b", "fsX", true) == Rewritten([MtabEntry("d3", "/b", "fsX", "ro")]);
  }

  /** A "noauto" entry and the root are passed over; the read-only entry is
      mounted read-only and is the only one recorded. */
  lemma BatchSkipsNoAutoAndRoot()
    ensures
      var e1 := FsEntry("d1", "/a", "fsX", "noauto");
      var e2 := FsEntry("d2", "/", "fsX", "");
      var e3 := FsEntry("d3", "/b", "fsX", "ro");
      var req3 := MountRequest(Some("d3"), "/b", MountFlags(true, false, false), Some("fsX"), Some("ro"));
      var r := MountAll([e1, e2, e3], Identity, AlwaysMounts, Recording, Mtab([], true));
      && r.status == ExitSuccess
      && r.steps == [Skipped(e1, "/a"), Skipped(e2, "/"), Mounted(e3, req3)]
      && r.mtab.entries == [MtabEntry("d3", "/b", "fsX", "ro")]
  {
    var e1 := FsEntry("d1", "/a", "fsX", "noauto");
    var e2 := FsEntry("d2", "/", "fsX", "");
    var e3 := FsEntry("d3", "/b", "fsX", "ro");
    var req3 := MountRequest(Some("d3"), "/b", MountFlags(true, false, false), Some("fsX"), Some("ro"));
    var m0 := Mtab([], true);
    var m1 := Mtab([MtabEntry("d3", "/b", "fsX", "ro")], true);
    var visit := BatchVisitor(Identity, AlwaysMounts, Recording);
    SampleVisits();
    assert [e3][1..] == [];
    assert Pass([], visit, m1) == BatchResult(ExitSuccess, [], m1);
    var r3 := Pass([e3], visit, m0);
    assert r3 == BatchResult(ExitSuccess, [Mounted(e3, req3)], m1);
    assert [e2, e3][1..] == [e3];
    var r2 := Pass([e2, e3], visit, m0);
    assert r2 == BatchResult(ExitSuccess, [Skipped(e2, "/"), Mounted(e3, req3)], m1);
    assert [e1, e2, e3][1..] == [e2, e3];
  }

  /** Every mount fails, returning -1. */
  function NeverMounts(req: MountRequest): int {
    -1
  }

  /** No mount point can be canonicalised. */
  function NeverResolves(path: string): Option<string> {
    None
  }

  /** When the first eligible entry fails to mount the pass fails at once:
      the second entry is never tried and the table is untouched. */
  lemma BatchHaltsAtFirstFailure()
    ensures
      var e1 := FsEntry("d1", "/a", "fsX", "");
      var e2 := FsEntry("d2", "/b", "fsX", "");
      var r := MountAll([e1, e2], Identity, NeverMounts, Recording, Mtab([], true));
      && r.status == ExitFailure
      && r.steps == [MountFailed(e1, BatchRequest(e1, "/a"))]
      && r.mtab == Mtab([], true)
  {
    var e1 := FsEntry("d1", "/a", "fsX", "");
    assert !HasOpt("", NoAutoOption);
    assert Visit(e1, Identity, NeverMounts, Recording, Mtab([], true))
        == (MountFailed(e1, BatchRequest(e1, "/a")), Mtab([], true));
  }

  /** A mount point that cannot be canonicalised fails the pass even on an
      entry the "noauto" option would have skipped. */
  lemma BatchFailsOnUnresolvableNoAuto()
    ensures
      var e1 := FsEntry("d1", "/gone", "fsX", "noauto");
      var r := MountAll([e1], NeverResolves, AlwaysMounts, Recording, Mtab([], true));
      r.status == ExitFailure && r.steps == [Unresolvable(e1)]
  {
  }

  /** A mount that succeeds on a full table fails the pass with a table
      error, and so does one on a table that cannot be read; the table is
      left as it was and the next entry is never tried. */
  lemma BatchStopsOnTableFailure()
    ensures
      var e1 := FsEntry("d1", "/a", "fsX", "");
      var e2 := FsEntry("d2", "/b", "fsX", "");
      var full := Mtab([MtabEntry("d0", "/", "MFSv3", "rw")], true);
      var unreadable := Mtab([], false);
      var r := MountAll([e1, e2], Identity, AlwaysMounts, Config(true, 1), full);
      var u := MountAll([e1, e2], Identity, AlwaysMounts, Recording, unreadable);
      && r == BatchResult(ExitFailure, [RecordFailed(e1, BatchRequest(e1, "/a"), TooLarge)], full)
      && u == BatchResult(ExitFailure, [RecordFailed(e1, BatchRequest(e1, "/a"), Unreadable)], unreadable)
  {
    var e1 := FsEntry("d1", "/a", "fsX", "");
    var full := Mtab([MtabEntry("d0", "/", "MFSv3", "rw")], true);
    var unreadable := Mtab([], false);
    assert !HasOpt("", NoAutoOption);
    assert Visit(e1, Identity, AlwaysMounts, Config(true, 1), full)
        == (RecordFailed(e1, BatchRequest(e1, "/a"), TooLarge), full);
    assert Visit(e1, Identity, AlwaysMounts, Recording, unreadable)
        == (RecordFailed(e1, BatchRequest(e1, "/a"), Unreadable), unreadable);
  }

  /** A "none" device reaches `mount` as no device at all but is recorded
      in the table as the word "none". */
  lemma BatchNoneDevice()
    ensures
      var e1 := FsEntry("none", "/tmp", "tmpfs", "rw");
      var req := MountRequest(None, "/tmp", MountFlags(false, false, false), Some("tmpfs"), Some("rw"));
      var r := MountAll([e1], Identity, AlwaysMounts, Recording, Mtab([], true));
      && r.status == ExitSuccess
      && r.steps == [Mounted(e1, req)]
      && r.mtab.entries == [MtabEntry("none", "/tmp", "tmpfs", "rw")]
  {
    var e1 := FsEntry("none", "/tmp", "tmpfs", "rw");
    var req := MountRequest(None, "/tmp", MountFlags(false, false, false), Some("tmpfs"), Some("rw"));
    var m1 := Mtab([MtabEntry("none", "/tmp", "tmpfs", "rw")], true);
    assert !HasOpt("rw", NoAutoOption) && !HasOpt("rw", ReadOnlyOption);
    assert BatchRequest(e1, "/tmp") == req;
    assert VersionTag("tmpfs") == "tmpfs" && RwFlag(false) == "rw";
    assert UpdateMtab(Recording, Mtab([], true), "none", "/tmp", "tmpfs", false) == Rewritten(m1.entries);
    assert Visit(e1, Identity, AlwaysMounts, Recording, Mtab([], true)) == (Mounted(e1, req), m1);
  }

  /** A probe that finds a version 3 MINIX file system. */
  function FindsMfs3(device: string): FsVersion {
    Mfs3
  }

  /** A plain `mount /dev/c0d0p1 /usr` probes the device, mounts it as
      "mfs" and records the version tag "MFSv3", read-write. */
  lemma SingleMountDetectsMinix()
    ensures
      var flags := MountFlags(false, false, false);
      var r := MountDevice("/dev/c0d0p1", "/usr", flags, None, None, FindsMfs3, AlwaysMounts,
                           Recording, Mtab([], true));
      && r.status == ExitSuccess
      && r.request == MountRequest(Some("/dev/c0d0p1"), "/usr", flags, Some("mfs"), None)
      && r.mtab.entries == [MtabEntry("/dev/c0d0p1", "/usr", "MFSv3", "rw")]
  {
  }

  /** With table recording off a successful mount leaves the table as it was. */
  lemma SingleMountWithoutRecording()
    ensures
      var flags := MountFlags(true, false, false);
      var m := Mtab([MtabEntry("/dev/c0d0p0", "/", "MFSv3", "rw")], true);
      var r := MountDevice("none", "/proc", flags, Some("procfs"), None, FindsMfs3, AlwaysMounts,
                           Config(false, 8), m);
      && r.status == ExitSuccess
      && r.request.device == None
      && r.mtab == m
  {
  }

  /** `mount -n none /tmp` without a type: no device, no type, and with
      recording off the mount succeeds without the type ever being read. */
  lemma SingleMountUntypedWithoutRecording()
    ensures
      var flags := MountFlags(false, false, false);
      var m := Mtab([], true);
      var r := MountDevice("none", "/tmp", flags, None, None, FindsMfs3, AlwaysMounts, Config(false, 8), m);
      && r.status == ExitSuccess
      && r.request == MountRequest(None, "/tmp", flags, None, None)
      && r.mtab == m
  {
  }

  /** `mount none /tmp` without a type on a table that cannot be read: the
      mount is made, then `update_mtab` gives up before it reads the type,
      and the command fails with the table as it was. */
  lemma SingleMountUntypedOnUnreadableTable()
    ensures
      var flags := MountFlags(false, false, false);
      var m := Mtab([], false);
      var r := MountDevice("none", "/tmp", flags, None, None, FindsMfs3, AlwaysMounts, Recording, m);
      && r.status == ExitFailure
      && r.request == MountRequest(None, "/tmp", flags, None, None)
      && r.mtab == m
  {
  }

  /** A `mount` that returns a positive value. */
  function ReturnsOne(req: MountRequest): int {
    1
  }

  /** A positive `mount` result is a success for `main` and a failure for
      `mount_all`. */
  lemma PositiveMountResult()
    ensures
      var flags := MountFlags(false, false, false);
      var e1 := FsEntry("d1", "/a", "fsX", "");
      var single := MountDevice("d1", "/a", flags, Some("fsX"), None, FindsMfs3, ReturnsOne, Recording, Mtab([], true));
      var batch := MountAll([e1], Identity, ReturnsOne, Recording, Mtab([], true));
      && single.status == ExitSuccess
      && single.mtab == Mtab([MtabEntry("d1", "/a", "fsX", "rw")], true)
      && batch == BatchResult(ExitFailure, [MountFailed(e1, BatchRequest(e1, "/a"))], Mtab([], true))
  {
    var e1 := FsEntry("d1", "/a", "fsX", "");
    assert !HasOpt("", NoAutoOption);
    assert VersionTag("fsX") == "fsX";
    assert Visit(e1, Identity, ReturnsOne, Recording, Mtab([], true))
        == (MountFailed(e1, BatchRequest(e1, "/a")), Mtab([], true));
  }
}

=== FILE: wrappers.dfy ===
/** Optional values, standing in for the C code's nullable pointers. */
module Wrappers {

  /** `None` plays the part of a NULL pointer, `Some(v)` of a pointer to `v`. */
  datatype Option<+T> = None | Some(value: T)
}
